=== FILE: README.md ===
# siphon: a Dafny model of the metric collector's decision logic

siphon lists every CloudWatch metric in a region. For each metric it starts one
goroutine. That goroutine asks for the metric's statistics over a fixed time
window. When the reply carries a datapoint list, the goroutine appends the
reply as JSON to a file under a base directory. The file's path comes from the
metric's namespace and either its first dimension or its name.

This project models the pure decisions in that flow:

- `wrappers.dfy`: `Option`, which stands for Go's nil slices (the dimension list and the datapoint list).
- `metrics.dfy`: the records the API returns. These are the metric (namespace,
  name, optional dimension list), a dimension, a datapoint and the statistics
  reply. `WellFormed` states that a present dimension list is not empty. The
  program indexes `Dimensions[0]` whenever the slice is non-nil, so an empty
  non-nil slice would panic.
- `paths.dfy`: slash-joined paths. It defines `Join` (what the `"%s/%s/..."`
  format strings build), `Split`, the last separator, and `Parent`. It proves
  that `Split` and `Join` are inverse when the segments contain no separator.
- `layout.dfy`: the output layout. `DerivePaths` builds the directory and
  file names exactly as the format strings do. The lemmas relate the result
  to the segment list, to the file's parent directory, and to which metrics
  share a file.
- `persist.dfy` (module `Persister`): the write decision `Decide` and its
  effect on an abstract file tree. The tree has a set of directories and a
  map from each regular file to the documents appended to it. No path is
  both. `MkdirAll` creates a directory and its ancestors. It fails, and
  changes nothing, when one of those paths is a regular file. An append-mode
  open fails, and changes nothing, when the path is a directory. It also
  fails when neither the file nor its parent directory exists. Errors only
  get printed, so a failed step never stops the rest of the task.
- `listing.dfy`: the page callback of the listing. `ListMetrics` adds each
  page's length to `totalMetrics` and spawns one task per metric.
- `siphon.dfy`: a whole run. It applies each task's write in spawn order,
  which is one of the interleavings the goroutines allow. It proves what
  every file holds at the end, for runs where the tasks with data have
  leaves without "/" and no path is both a file and a directory.
  `UntargetedUnchanged` proves, with no such hypotheses, that files no task
  with data targets stay unchanged.

Everything is a pure function of its inputs, so equal inputs give equal paths
and equal decisions by construction. The base directory and the replies are
parameters. The replies stand for the answers to the shared time-window query.

The code tests only `resp.Datapoints != nil` (siphon.go:92), so a reply
whose list is present but empty still creates the directory and appends a
document. `Decide` writes exactly when the list is present.

The layout can also make a path a regular file for one metric and a
directory for another. This happens, for example, when a metric without
dimensions is named like another metric's first dimension name in the same
namespace. The file base/ns/x and the directory base/ns/x cannot both
exist, so one of the two replies is lost. Which one is lost depends on which
task runs first; `NameFileBlocksDimensionWrite` and
`DimensionDirectoryBlocksNameWrite` show both orders.

Namespaces hold "/" themselves (AWS/EC2), so clashes and shared files also
arise between a namespace and one that extends it by a segment. The
dimensionless metric x of namespace ns has the file base/ns/x, which is a
directory that every metric of namespace ns/x needs
(`NestedNamespaceFileIsAncestor`). The dimensionless metric v of namespace
ns/x and a metric of namespace ns with first dimension (x, v) write to the
same file (`NestedNamespaceSharesFile`). The run-level lemmas therefore
assume a run without file/directory clashes.

## Model

| member | source | states |
|---|---|---|
| Layout.DerivePaths | siphon.go:94-102 | The file path is the join, with "/", of base directory, namespace and then either the first dimension's name and value or the metric name. The directory is the same join without the last segment. The file is the directory plus "/" plus the leaf segment. |
| Layout.ParentOfFile | siphon.go:96-111 | The directory passed to MkdirAll is the parent of the file opened for append if and only if the leaf segment (first dimension value, or metric name) has no "/". |
| Layout.FirstDimensionCollision | siphon.go:96-98 | With dimensions, the metric name and every later dimension are ignored. Two metrics with the same namespace and first dimension get the same directory and the same file. |
| Layout.SameFileIff | siphon.go:96-101 | Within one namespace, with "/"-free key segments, two metrics share a file exactly when both have dimensions with equal first dimensions, or both have none and equal names. A dimensioned metric never shares a file with an undimensioned one. |
| Layout.NestedNamespaceSharesFile | siphon.go:97-101 | The dimensionless metric v of namespace ns/x and a metric of namespace ns whose first dimension is (x, v) get the same file. |
| Paths.SplitJoin | siphon.go:97-100 | Splitting a path built from "/"-free segments at its separators gives back exactly those segments. |
| Paths.JoinSplit | siphon.go:97-100 | Joining the segments of any path with "/" gives back the path. |
| Persister.Decide | siphon.go:92-102 | A write action exists if and only if the reply's datapoint list is present (non-nil). It carries the reply unchanged, with the directory and file from DerivePaths. |
| Persister.MkdirAll | siphon.go:105 | Ensure-exists creation. When neither the directory nor any ancestor is a regular file, exactly the directory and its ancestors are added. Otherwise creation fails and the tree is unchanged. Files are never touched, and a tree without file/directory clashes stays so. |
| Persister.AncestorsExactly | siphon.go:105 | The paths MkdirAll creates for d are d itself and exactly the prefixes of d that stop just before a separator, both directions. |
| Persister.NestedNamespaceFileIsAncestor | siphon.go:97-105 | The file of a dimensionless metric x in namespace ns is among the directories MkdirAll must create for any metric of namespace ns/x, so the two cannot both be written. |
| Persister.MkdirAllIdempotent | siphon.go:105 | Ensuring the same directory twice leaves the same tree as ensuring it once. |
| Persister.AppendFile | siphon.go:111-114 | When the path is not a directory and either the file or its parent directory exists, the file gains exactly one trailing document and exists afterwards. Otherwise the open fails and nothing changes. No other file ever changes. |
| Persister.Persist | siphon.go:92-114 | One task's effect on the tree. A reply with no list changes nothing. Only the metric's file can change. With a list, a "/"-free leaf and no clash, that file gains the reply. Documents and directories are never removed, and only the metric's directories and file can be added. |
| Persister.NoDataNoEffect | siphon.go:92 | A reply with no datapoint list leaves every directory and file unchanged. |
| Persister.WriteLands | siphon.go:92-114 | Take a reply with a datapoint list and a "/"-free leaf, where no ancestor of the directory is a regular file and the file is not a directory. Then exactly one document, the reply, is appended to the metric's file. The directories added are exactly the directory and its ancestors, the file exists afterwards, and no other file changes. |
| Persister.WriteLostWhenLeafHasSlash | siphon.go:96-111 | As written: when the leaf has a "/" and the tree has neither the file nor its real parent, the append fails and no file changes. |
| Persister.FileOnDirectoryBlocksWrite | siphon.go:105-111 | When a regular file stands where the metric's directory belongs and the metric's own file does not exist yet, the directory cannot be created, the open fails, and no file changes. |
| Persister.LoadBalancerWriteLost | siphon.go:96-111 | A concrete case: a metric whose first dimension is LoadBalancer = "app/web/1" loses its write on an empty tree, though its reply carries a datapoint. |
| Persister.DecideCorrected | siphon.go:96-105 | Corrected decision: same trigger and same file, but the directory to ensure is the file's actual parent. |
| Persister.CorrectedWriteLands | siphon.go:92-114 | With the corrected decision, take a reply with a datapoint list and no file/directory clash on its path. Then exactly one document is added to the metric's file, whatever the segments contain, and no other file changes. |
| Persister.CorrectedAgrees | siphon.go:96-102 | The corrected decision equals the written one whenever the leaf has no "/". |
| Listing.ListMetrics | siphon.go:49-60 | After the callback has run over every page, totalMetrics is the sum of the page lengths and the spawned tasks are the metrics of all pages in listing order. The number of tasks equals totalMetrics. |
| Listing.FlattenLength | siphon.go:53-57 | The number of spawned tasks equals the sum of the page lengths. |
| Listing.FlattenMembers | siphon.go:54-57 | A metric gets a task if and only if it appears on some page. |
| Listing.StoppedListingIsPrefix | siphon.go:52-61 | A listing that stops after k pages has a count no larger than the full listing's, and its tasks are a prefix of the full listing's. |
| Siphon.Run | siphon.go:52-64 | The tree after every spawned task has persisted its reply. No directory or document is removed, a clash-free tree stays clash-free, and only the files and directories of tasks with data can appear. |
| Siphon.RunAppends | siphon.go:54-114 | Take a run where the tasks whose reply carries a datapoint list have "/"-free leaves (tasks without one never write, so their leaves may hold anything), and where no file a task writes is a directory a task ensures or a directory of the starting tree, and no directory a task ensures is a starting file. Then every file ends up holding its old documents followed by exactly the replies of the tasks with data that target it, in task order. |
| Siphon.UntargetedUnchanged | siphon.go:92-114 | A file that no task with data targets is left unchanged, whatever the segments contain. |
| Siphon.TwoMetricScenario | siphon.go:52-114 | Take one page with an InstanceId=i-1 metric that has three datapoints and a dimensionless metric with no datapoint list. The count is 2. Exactly one file exists afterwards, base/ns/InstanceId/i-1, holding the first reply once. No file exists for the second metric. |
| Siphon.NameFileBlocksDimensionWrite | siphon.go:96-111 | Take a dimensionless metric named x and a metric whose first dimension is (x, v), in one namespace, both with data. Run in that order, base/ns/x becomes a file holding the first reply, and the second reply's file base/ns/x/v is never created. |
| Siphon.DimensionDirectoryBlocksNameWrite | siphon.go:96-111 | The same two metrics in the other order: base/ns/x/v holds the dimensioned reply, and base/ns/x never becomes a file, so the other reply is lost. |

## Findings

| source | as written | input that shows it | evidently intended | confidence | as-written member | corrected member |
|---|---|---|---|---|---|---|
| siphon.go:97-98 | The directory ensured is base/namespace/firstDimensionName. The file is that directory plus "/" plus the raw first dimension value. A value containing "/" puts the file below a directory that was never created. | Namespace AWS/ApplicationELB with first dimension LoadBalancer = "app/web/1", on a tree without base/AWS/ApplicationELB/LoadBalancer/app/web. | The directory created is the one that holds the file, so every reply with data is written. | medium, not executed | Persister.FileOnDirectoryBlocksWrite | siphon.go:105-111 | When a regular file stands where the metric's directory belongs and the metric's own file does not exist yet, the directory cannot be created, the open fails, and no file changes. |
| Persister.LoadBalancerWriteLost | Persister.DecideCorrected |

The same happens in the no-dimension branch (siphon.go:100-101) when a metric
name contains "/". `WriteLostWhenLeafHasSlash` covers both branches. The
run-level lemmas are stated for "/"-free leaves. There `CorrectedAgrees` shows
the written and corrected decisions are the same, so those lemmas hold for
both.

## Left out

- The CloudWatch client (`cloudwatch.New`, `ListMetricsPages`, `GetMetricStatistics`) is left out because it is a foreign network API. The listed pages and each task's reply are parameters instead. A failed statistics request leaves the SDK's empty reply with a nil datapoint list, so it looks like a reply with no list. A failed listing is modelled as the pages delivered before the failure (`StoppedListingIsPrefix`).
- Goroutines and the `sync.WaitGroup` barrier are left out. The tasks form a sequence, and a run applies them in spawn order. Under real concurrency, appends to one file can happen in any order. So the order of documents within a file (`RunAppends`) is that of one interleaving only. With "/"-free leaves on the tasks with data and without file/directory clashes every write lands, so each file's documents are the same in every interleaving up to order. With a clash, which reply is lost depends on the order.
- `json.Marshal` is left out because serialisation is library behaviour. The appended document is the reply value itself. Marshalling fails only on a NaN or infinite statistic, which the API does not return. The model's statistics are reals (`Datapoint`), so that case is left out. In that case the source still opens the file with create (siphon.go:109-114) and writes nothing, so an empty file appears.
- Other file-system behaviour is left out: permissions, a full disk, write errors, and the resolution of "//", ".", "..", an empty segment and a trailing "/" in a segment. The model keeps only three failures: a directory component that is a regular file, opening a directory, and a missing parent directory. Paths are compared as raw strings, so a leaf such as "", "." or ".." lands in the model at a path the operating system would resolve elsewhere or refuse. The phrase "whatever the segments contain" in `UntargetedUnchanged` and `CorrectedWriteLands` is meant over these raw strings.
- Persister.AppendFile: the success condition is a simplification of the operating system's open with create. It is stated over raw path strings. The parent directory counts as existing when it is in the tree's directory set; the tree does not require its ancestors to be there too.
- Flag parsing and `time.Parse` are left out because they are configuration glue. In the source, the package-level variables at siphon.go:26-30 are initialised before `flag.Parse()` runs, so the program always uses the flags' defaults. The model takes the base directory as a parameter instead.
- The fixed query shape is left out: five statistics, unit "Seconds", the period and the time window (siphon.go:72-87). It is a constant record handed to the foreign client, and nothing in the model depends on it.
- `check` and all printing are left out (siphon.go:32-37, 51, 65, 108). They only log and have no effect on control flow. The summary's count is `totalMetrics` from `ListMetrics`.
- A nil `Namespace`, `MetricName`, dimension `Name` or `Value` pointer would panic when dereferenced. This is not modelled: these fields are plain strings.
- A non-nil but empty dimension slice would panic at siphon.go:97 when the reply carries a datapoint list; with a nil list the index is never reached and nothing happens. `WellFormed` excludes such a metric in both cases rather than modelling the panic, so `Decide`, `Persist` and `NoDataNoEffect` say nothing about it.

=== FILE: layout.dfy ===
/** The output tree: the directory and the file a metric's statistics go to.
    Below the base directory and the namespace, a metric is keyed by its
    first dimension's name and value, or by its own name when it has no
    dimensions. */
module Layout {
  import opened Wrappers
  import opened Metrics
  import opened Paths

  /** The directory that is ensured and the file that is appended to. */
  datatype Location = Location(dir: Path, file: Path)

  /** The segments below the namespace that identify a metric's file. */
  function Key(m: Metric): (k: seq<string>)
    requires WellFormed(m)
    ensures 1 <= |k| <= 2
  {
    match m.dimensions
    case Some(ds) => [ds[0].name, ds[0].value]
    case None => [m.name]
  }

  /** The file name inside the metric's directory. */
  function Leaf(m: Metric): string
    requires WellFormed(m)
  {
    Key(m)[|Key(m)| - 1]
  }

  /** The full segment list of a metric's file path. */
  function Segments(baseDir: Path, m: Metric): (s: seq<string>)
    requires WellFormed(m)
    ensures 3 <= |s| <= 4
  {
    [baseDir, m.namespace] + Key(m)
  }

  /** The two paths built for a metric with data, spelled as the format
      strings spell them. */
  function DerivePaths(baseDir: Path, m: Metric): (r: Location)
    requires WellFormed(m)
    ensures r.file == Join(Segments(baseDir, m))
    ensures r.dir == Join(Segments(baseDir, m)[..|Segments(baseDir, m)| - 1])
    ensures r.file == r.dir + "/" + Leaf(m)
  {
    if m.dimensions.Some? then
      var d := m.dimensions.value[0];
      JoinSnoc([baseDir], m.namespace);
      assert [baseDir] + [m.namespace] == [baseDir, m.namespace];
      JoinSnoc([baseDir, m.namespace], d.name);
      assert [baseDir, m.namespace] + [d.name] == [baseDir, m.namespace, d.name];
      JoinSnoc([baseDir, m.namespace, d.name], d.value);
      assert [baseDir, m.namespace, d.name] + [d.value] == Segments(baseDir, m);
      Location(baseDir + "/" + m.namespace + "/" + d.name,
               baseDir + "/" + m.namespace + "/" + d.name + "/" + d.value)
    else
      JoinSnoc([baseDir], m.namespace);
      assert [baseDir] + [m.namespace] == [baseDir, m.namespace];
      JoinSnoc([baseDir, m.namespace], m.name);
      assert [baseDir, m.namespace] + [m.name] == Segments(baseDir, m);
      Location(baseDir + "/" + m.namespace,
               baseDir + "/" + m.namespace + "/" + m.name)
  }

  /** The directory built is the parent of the file built exactly when the
      leaf segment holds no separator. */
  lemma ParentOfFile(baseDir: Path, m: Metric)
    requires WellFormed(m)
    ensures var loc := DerivePaths(baseDir, m);
            Parent(loc.file) == loc.dir <==> SlashFree(Leaf(m))
  {
    var loc := DerivePaths(baseDir, m);
    if SlashFree(Leaf(m)) {
      LastSlashOfAppend(loc.dir, Leaf(m));
    } else {
      LastSlashInsideSegment(loc.dir, Leaf(m));
      assert |Parent(loc.file)| > |loc.dir|;
    }
  }

  /** With dimensions, the metric name and every dimension after the first
      play no part: two such metrics in one namespace with the same first
      dimension share both paths. */
  lemma FirstDimensionCollision(baseDir: Path, m1: Metric, m2: Metric)
    requires WellFormed(m1) && WellFormed(m2)
    requires m1.namespace == m2.namespace
    requires m1.dimensions.Some? && m2.dimensions.Some?
    requires m1.dimensions.value[0] == m2.dimensions.value[0]
    ensures DerivePaths(baseDir, m1) == DerivePaths(baseDir, m2)
  {
  }

  /** Within one namespace, and with separator-free key segments, two metrics
      share a file exactly when both have dimensions and the same first one,
      or both have none and the same name. */
  lemma SameFileIff(baseDir: Path, m1: Metric, m2: Metric)
    requires WellFormed(m1) && WellFormed(m2)
    requires m1.namespace == m2.namespace
    requires forall i :: 0 <= i < |Key(m1)| ==> SlashFree(Key(m1)[i])
    requires forall i :: 0 <= i < |Key(m2)| ==> SlashFree(Key(m2)[i])
    ensures DerivePaths(baseDir, m1).file == DerivePaths(baseDir, m2).file
        <==> (|| (m1.dimensions.Some? && m2.dimensions.Some?
                  && m1.dimensions.value[0] == m2.dimensions.value[0])
              || (m1.dimensions.None? && m2.dimensions.None? && m1.name == m2.name))
  {
    var prefix := [baseDir, m1.namespace];
    JoinAppend(prefix, Key(m1));
    JoinAppend(prefix, Key(m2));
    var f1 := DerivePaths(baseDir, m1).file;
    var f2 := DerivePaths(baseDir, m2).file;
    var n := |Join(prefix)| + 1;
    assert f1[n..] == Join(Key(m1));
    assert f2[n..] == Join(Key(m2));
    if f1 == f2 {
      SplitJoin(Key(m1));
      SplitJoin(Key(m2));
      assert Key(m1) == Key(m2);
    }
  }

  /** Namespaces may hold separators, so a namespace that extends another by
      one segment reaches into the other's tree: a dimensionless metric of
      namespace ns/x named v shares its file with every metric of namespace
      ns whose first dimension is (x, v). */
  lemma NestedNamespaceSharesFile(baseDir: Path, m1: Metric, m2: Metric)
    requires WellFormed(m1) && WellFormed(m2)
    requires m1.dimensions.None? && m2.dimensions.Some?
    requires m1.namespace == m2.namespace + "/" + m2.dimensions.value[0].name
    requires m1.name == m2.dimensions.value[0].value
    ensures DerivePaths(baseDir, m1).file == DerivePaths(baseDir, m2).file
  {
  }
}

=== FILE: listing.dfy ===
/** The page callback of the metric listing: a running total of the metrics
    seen and one spawned task per metric, in listing order. */
module Listing {
  import opened Metrics

  type Page = seq<Metric>

  /** Sum of the page lengths. */
  function Total(pages: seq<Page>): nat {
    if |pages| == 0 then 0
    else Total(pages[..|pages| - 1]) + |pages[|pages| - 1]|
  }

  /** All metrics of all pages, page by page. */
  function Flatten(pages: seq<Page>): seq<Metric> {
    if |pages| == 0 then []
    else Flatten(pages[..|pages| - 1]) + pages[|pages| - 1]
  }

  lemma {:induction false} FlattenLength(pages: seq<Page>)
    ensures |Flatten(pages)| == Total(pages)
  {
    if |pages| > 0 {
      FlattenLength(pages[..|pages| - 1]);
    }
  }

  /** A metric is spawned exactly when it appears on some page. */
  lemma {:induction false} FlattenMembers(pages: seq<Page>, m: Metric)
    ensures m in Flatten(pages) <==> exists k :: 0 <= k < |pages| && m in pages[k]
  {
    if |pages| > 0 {
      var init := pages[..|pages| - 1];
      FlattenMembers(init, m);
      if m in Flatten(init) {
        var k :| 0 <= k < |init| && m in init[k];
        assert pages[k] == init[k];
      }
      if exists k :: 0 <= k < |pages| && m in pages[k] {
        var k :| 0 <= k < |pages| && m in pages[k];
        if k < |pages| - 1 {
          assert init[k] == pages[k];
        }
      }
    }
  }

  /** A listing that stops after its first `k` pages has counted and spawned
      a prefix of what the full listing would have. */
  lemma {:induction false} StoppedListingIsPrefix(pages: seq<Page>, k: nat)
    requires k <= |pages|
    ensures Total(pages[..k]) <= Total(pages)
    ensures Flatten(pages[..k]) <= Flatten(pages)
    decreases |pages|
  {
    if k < |pages| {
      var init := pages[..|pages| - 1];
      assert init[..k] == pages[..k];
      StoppedListingIsPrefix(init, k);
    } else {
      assert pages[..k] == pages;
    }
  }

  /** The callback run over every delivered page: add each page's length to
      the total, and spawn one task per metric on the page. */
  method ListMetrics(pages: seq<Page>) returns (totalMetrics: nat, tasks: seq<Metric>)
    ensures totalMetrics == Total(pages)
    ensures tasks == Flatten(pages)
    ensures |tasks| == totalMetrics
  {
    totalMetrics := 0;
    tasks := [];
    var p := 0;
    while p < |pages|
      invariant 0 <= p <= |pages|
      invariant totalMetrics == Total(pages[..p])
      invariant tasks == Flatten(pages[..p])
    {
      var page := pages[p];
      totalMetrics := totalMetrics + |page|;
      var j := 0;
      while j < |page|
        invariant 0 <= j <= |page|
        invariant tasks == Flatten(pages[..p]) + page[..j]
      {
        tasks := tasks + [page[j]];
        j := j + 1;
      }
      assert pages[..p + 1][..p] == pages[..p];
      assert page[..j] == page;
      p := p + 1;
    }
    assert pages[..p] == pages;
    FlattenLength(pages);
  }
}

=== FILE: metrics.dfy ===
/** The records the monitoring API hands to the program: a metric's identity
    from the listing and the statistics reply for one metric. */
module Metrics {
  import opened Wrappers

  /** One name/value tag of a metric. */
  datatype Dim = Dim(name: string, value: string)

  /** A metric as listed. `dimensions` is `None` when the API returned a nil
      slice and `Some(ds)` otherwise. */
  datatype Metric = Metric(namespace: string, name: string, dimensions: Option<seq<Dim>>)

  /** The program indexes the first dimension whenever the slice is non-nil,
      so a present dimension list must hold at least one entry. */
  predicate WellFormed(m: Metric) {
    m.dimensions.Some? ==> |m.dimensions.value| >= 1
  }

  /** One aggregated sample: the five requested statistics over one period.
      The API's 64-bit floating-point statistics are modelled as reals, so
      NaN and the infinities do not occur. */
  datatype Datapoint = Datapoint(
    timestamp: int,
    sampleCount: real,
    average: real,
    sum: real,
    minimum: real,
    maximum: real,
    unit: string)

  /** The statistics reply. `datapoints` is `None` when the reply carries a
      nil list, which is also what a failed request leaves behind. */
  datatype Response = Response(metricLabel: string, datapoints: Option<seq<Datapoint>>)
}

=== FILE: paths.dfy ===
/** Slash-separated paths: joining segments, finding the last separator,
    the parent directory, and splitting a path back into segments. */
module Paths {
  import opened Wrappers

  /** A path is the raw string the format strings build; empty or repeated
      separators are kept as they are. */
  type Path = string

  predicate SlashFree(s: string) {
    forall i :: 0 <= i < |s| ==> s[i] != '/'
  }

  /** Segments joined with '/', as a format string of the shape "%s/%s/..."
      joins them. */
  function Join(segs: seq<string>): Path
    requires |segs| >= 1
  {
    if |segs| == 1 then segs[0]
    else Join(segs[..|segs| - 1]) + "/" + segs[|segs| - 1]
  }

  /** Position of the last separator among the first `n` characters of `p`,
      if any. */
  function LastSlashBefore(p: Path, n: nat): (r: Option<nat>)
    requires n <= |p|
    ensures r.None? ==> forall i :: 0 <= i < n ==> p[i] != '/'
    ensures r.Some? ==> r.value < n && p[r.value] == '/'
    ensures r.Some? ==> forall i :: r.value < i < n ==> p[i] != '/'
  {
    if n == 0 then None
    else if p[n - 1] == '/' then Some(n - 1)
    else LastSlashBefore(p, n - 1)
  }

  /** Position of the last separator of `p`, if any. */
  function LastSlash(p: Path): Option<nat> {
    LastSlashBefore(p, |p|)
  }

  /** The directory part of a path: everything before its last separator,
      or "." for a bare name. */
  function Parent(p: Path): Path {
    match LastSlash(p)
    case None => "."
    case Some(i) => p[..i]
  }

  /** The segments of a path, split at every separator. */
  function Split(p: Path): (r: seq<string>)
    ensures |r| >= 1
    decreases |p|
  {
    match LastSlash(p)
    case None => [p]
    case Some(i) => Split(p[..i]) + [p[i + 1..]]
  }

  /** A separator among the first `n` characters with none after it (below
      `n`) is the last one. */
  lemma LastSlashBeforeUnique(p: Path, n: nat, k: nat)
    requires n <= |p|
    requires k < n && p[k] == '/'
    requires forall i :: k < i < n ==> p[i] != '/'
    ensures LastSlashBefore(p, n) == Some(k)
  {
  }

  /** Appending a separator and a slash-free segment puts the last separator
      exactly between the two. */
  lemma LastSlashOfAppend(x: Path, y: string)
    requires SlashFree(y)
    ensures LastSlash(x + "/" + y) == Some(|x|)
  {
    var p := x + "/" + y;
    assert p[|x|] == '/';
    forall i | |x| < i < |p|
      ensures p[i] != '/'
    {
      assert p[i] == y[i - |x| - 1];
    }
    LastSlashBeforeUnique(p, |p|, |x|);
  }

  /** Appending a segment that holds a separator puts the last separator
      inside that segment. */
  lemma LastSlashInsideSegment(x: Path, y: string)
    requires !SlashFree(y)
    ensures LastSlash(x + "/" + y).Some?
    ensures LastSlash(x + "/" + y).value > |x|
  {
    var p := x + "/" + y;
    var j :| 0 <= j < |y| && y[j] == '/';
    assert p[|x| + 1 + j] == '/';
  }

  /** Splitting a path extended by one separator-free segment. */
  lemma SplitAppend(x: Path, y: string)
    requires SlashFree(y)
    ensures Split(x + "/" + y) == Split(x) + [y]
  {
    var p := x + "/" + y;
    LastSlashOfAppend(x, y);
    assert p[..|x|] == x;
    assert p[|x| + 1..] == y;
  }

  lemma {:induction false} SplitJoin(segs: seq<string>)
    requires |segs| >= 1
    requires forall i :: 0 <= i < |segs| ==> SlashFree(segs[i])
    ensures Split(Join(segs)) == segs
    decreases |segs|
  {
    if |segs| > 1 {
      var init := segs[..|segs| - 1];
      var y := segs[|segs| - 1];
      assert forall i :: 0 <= i < |init| ==> SlashFree(init[i]) by {
        forall i | 0 <= i < |init|
          ensures SlashFree(init[i])
        {
          assert init[i] == segs[i];
        }
      }
      SplitJoin(init);
      SplitAppend(Join(init), y);
      assert segs == init + [y];
    }
  }

  lemma {:induction false} JoinSplit(p: Path)
    ensures Join(Split(p)) == p
    decreases |p|
  {
    match LastSlash(p)
    case None =>
    case Some(i) =>
      var init := Split(p[..i]);
      JoinSplit(p[..i]);
      var segs := init + [p[i + 1..]];
      assert segs[..|segs| - 1] == init;
      assert p == p[..i] + "/" + p[i + 1..];
  }

  /** One more segment adds one separator and the segment. */
  lemma JoinSnoc(s: seq<string>, x: string)
    requires |s| >= 1
    ensures Join(s + [x]) == Join(s) + "/" + x
  {
    assert (s + [x])[..|s|] == s;
  }

  /** Joining is associative across a cut of the segment list. */
  lemma {:induction false} JoinAppend(s: seq<string>, t: seq<string>)
    requires |s| >= 1 && |t| >= 1
    ensures Join(s + t) == Join(s) + "/" + Join(t)
    decreases |t|
  {
    if |t| == 1 {
      assert (s + t)[..|s + t| - 1] == s;
    } else {
      var t' := t[..|t| - 1];
      JoinAppend(s, t');
      assert (s + t)[..|s + t| - 1] == s + t';
    }
  }
}

=== FILE: persist.dfy ===
/** What one fetch-and-persist task does with the reply it obtained: the
    write decision, and its effect on an abstract file tree. */
module Persister {
  import opened Wrappers
  import opened Metrics
  import opened Paths
  import opened Layout

  /** Ensure `dir` exists, then append `document` to `file`. The document is
      the reply itself; its serialised form is not modelled. */
  datatype WriteAction = WriteAction(dir: Path, file: Path, document: Response)

  /** The write decision of a task: a write exactly when the reply's
      datapoint list is present (even if that list is empty). */
  function Decide(baseDir: Path, m: Metric, resp: Response): (r: Option<WriteAction>)
    requires WellFormed(m)
    ensures r.Some? <==> resp.datapoints.Some?
    ensures r.Some? ==> r.value.document == resp
    ensures r.Some? ==> Location(r.value.dir, r.value.file) == DerivePaths(baseDir, m)
  {
    if resp.datapoints.Some? then
      var loc := DerivePaths(baseDir, m);
      Some(WriteAction(loc.dir, loc.file, resp))
    else
      None
  }

  /** Directories that exist, and the documents appended to each regular
      file. */
  datatype FileSystem = FileSystem(dirs: set<Path>, files: map<Path, seq<Response>>)

  /** No path is both a directory and a regular file. */
  predicate Valid(fs: FileSystem) {
    fs.dirs !! fs.files.Keys
  }

  /** The documents of `f`; a missing file reads as empty. */
  function Contents(fs: FileSystem, f: Path): seq<Response> {
    if f in fs.files then fs.files[f] else []
  }

  /** A directory and every ancestor reached by cutting at a separator. */
  function Ancestors(d: Path): (r: set<Path>)
    ensures d in r
    ensures forall a :: a in r ==> |a| <= |d|
    decreases |d|
  {
    match LastSlash(d)
    case None => {d}
    case Some(i) => {d} + Ancestors(d[..i])
  }

  /** The ancestors of `d` are `d` itself and exactly its prefixes that stop
      just before a separator. */
  lemma {:induction false} AncestorsExactly(d: Path)
    ensures forall a :: a in Ancestors(d) ==>
              a == d || exists i :: 0 <= i < |d| && d[i] == '/' && a == d[..i]
    ensures forall i :: 0 <= i < |d| && d[i] == '/' ==> d[..i] in Ancestors(d)
    decreases |d|
  {
    match LastSlash(d)
    case None =>
    case Some(k) =>
      var up := d[..k];
      AncestorsExactly(up);
      forall a | a in Ancestors(d)
        ensures a == d || exists i :: 0 <= i < |d| && d[i] == '/' && a == d[..i]
      {
        if a != d && a != up {
          var i :| 0 <= i < |up| && up[i] == '/' && a == up[..i];
          assert d[i] == '/' && a == d[..i];
        }
      }
      forall i | 0 <= i < |d| && d[i] == '/'
        ensures d[..i] in Ancestors(d)
      {
        if i < k {
          assert up[i] == '/' && up[..i] == d[..i];
        }
      }
  }

  /** Ensure-exists creation of a directory and its ancestors. When one of
      them is a regular file, creation fails and nothing changes. */
  function MkdirAll(fs: FileSystem, d: Path): (r: FileSystem)
    ensures Ancestors(d) !! fs.files.Keys ==> r.dirs == fs.dirs + Ancestors(d) && d in r.dirs
    ensures !(Ancestors(d) !! fs.files.Keys) ==> r == fs
    ensures r.files == fs.files
    ensures Valid(fs) ==> Valid(r)
  {
    if Ancestors(d) !! fs.files.Keys then FileSystem(fs.dirs + Ancestors(d), fs.files)
    else fs
  }

  /** Ensuring the same directory twice is the same as ensuring it once. */
  lemma MkdirAllIdempotent(fs: FileSystem, d: Path)
    ensures MkdirAll(MkdirAll(fs, d), d) == MkdirAll(fs, d)
  {
  }

  /** The file of a dimensionless metric x in namespace ns is one of the
      directories ensured for every metric of namespace ns/x. Once that file
      exists, no such metric can be written, and once such a directory
      exists, the file cannot be opened. */
  lemma NestedNamespaceFileIsAncestor(baseDir: Path, m1: Metric, m2: Metric)
    requires WellFormed(m1) && WellFormed(m2)
    requires m1.dimensions.None?
    requires m2.namespace == m1.namespace + "/" + m1.name
    ensures DerivePaths(baseDir, m1).file in Ancestors(DerivePaths(baseDir, m2).dir)
  {
    var f := DerivePaths(baseDir, m1).file;
    var dir := DerivePaths(baseDir, m2).dir;
    assert f == baseDir + "/" + m2.namespace;
    if m2.dimensions.Some? {
      var name := m2.dimensions.value[0].name;
      assert dir == f + "/" + name;
      assert dir[|f|] == '/' && dir[..|f|] == f;
      AncestorsExactly(dir);
    } else {
      assert dir == f;
    }
  }

  /** Append-mode open (creating the file if missing) followed by one write.
      Opening fails when the path is a directory, or when neither the file
      nor its parent directory exists; the failure is only reported, so
      nothing changes. */
  function AppendFile(fs: FileSystem, f: Path, doc: Response): (r: FileSystem)
    ensures r.dirs == fs.dirs
    ensures forall g :: g != f ==> Contents(r, g) == Contents(fs, g)
    ensures f !in fs.dirs && (f in fs.files || Parent(f) in fs.dirs) ==>
              Contents(r, f) == Contents(fs, f) + [doc] && r.files.Keys == fs.files.Keys + {f}
    ensures !(f !in fs.dirs && (f in fs.files || Parent(f) in fs.dirs)) ==> r == fs
    ensures Valid(fs) ==> Valid(r)
  {
    if f !in fs.dirs && (f in fs.files || Parent(f) in fs.dirs) then
      FileSystem(fs.dirs, fs.files[f := Contents(fs, f) + [doc]])
    else
      fs
  }

  /** Carry out a decision: nothing, or ensure the directory and append. */
  function Apply(fs: FileSystem, a: Option<WriteAction>): FileSystem {
    match a
    case None => fs
    case Some(w) => AppendFile(MkdirAll(fs, w.dir), w.file, w.document)
  }

  /** Neither the directory to ensure nor any of its ancestors is a regular
      file, and the file to append to is not a directory. */
  predicate NoClash(fs: FileSystem, dir: Path, file: Path) {
    Ancestors(dir) !! fs.files.Keys && file !in fs.dirs
  }

  /** The effect of one task on the file tree. A reply without a datapoint
      list changes nothing; otherwise only the metric's file can change, and
      when nothing on its path clashes and its leaf is separator-free, it
      gains the reply as one more document. */
  function Persist(fs: FileSystem, baseDir: Path, m: Metric, resp: Response): (r: FileSystem)
    requires WellFormed(m)
    ensures resp.datapoints.None? ==> r == fs
    ensures forall g :: g != DerivePaths(baseDir, m).file ==> Contents(r, g) == Contents(fs, g)
    ensures resp.datapoints.Some? && SlashFree(Leaf(m))
            && NoClash(fs, DerivePaths(baseDir, m).dir, DerivePaths(baseDir, m).file)
            ==> Contents(r, DerivePaths(baseDir, m).file)
                == Contents(fs, DerivePaths(baseDir, m).file) + [resp]
    ensures forall g :: Contents(fs, g) <= Contents(r, g)
    ensures fs.dirs <= r.dirs
    ensures resp.datapoints.Some? ==> r.dirs <= fs.dirs + Ancestors(DerivePaths(baseDir, m).dir)
    ensures r.files.Keys <= fs.files.Keys + {DerivePaths(baseDir, m).file}
    ensures Valid(fs) ==> Valid(r)
  {
    ParentOfFile(baseDir, m);
    Apply(fs, Decide(baseDir, m, resp))
  }

  /** A reply without a datapoint list leaves every directory and file as it
      was. */
  lemma NoDataNoEffect(fs: FileSystem, baseDir: Path, m: Metric, resp: Response)
    requires WellFormed(m)
    requires resp.datapoints.None?
    ensures Persist(fs, baseDir, m, resp) == fs
  {
  }

  /** A reply with a datapoint list, a separator-free leaf and no clash on
      its path appends exactly one document, the reply, to the metric's
      file; afterwards the directory and its ancestors exist, the file
      exists, and no other file changes. */
  lemma WriteLands(fs: FileSystem, baseDir: Path, m: Metric, resp: Response)
    requires WellFormed(m)
    requires resp.datapoints.Some?
    requires SlashFree(Leaf(m))
    requires NoClash(fs, DerivePaths(baseDir, m).dir, DerivePaths(baseDir, m).file)
    ensures var fs' := Persist(fs, baseDir, m, resp);
            var loc := DerivePaths(baseDir, m);
            && Contents(fs', loc.file) == Contents(fs, loc.file) + [resp]
            && (forall g :: g != loc.file ==> Contents(fs', g) == Contents(fs, g))
            && fs'.dirs == fs.dirs + Ancestors(loc.dir)
            && fs'.files.Keys == fs.files.Keys + {loc.file}
  {
    ParentOfFile(baseDir, m);
    var loc := DerivePaths(baseDir, m);
    assert loc.file !in Ancestors(loc.dir);
  }

  /** As written, when the leaf segment (the first dimension's value, or the
      metric name) holds a separator, the directory created is not the
      file's parent; on a tree that has neither the file nor that parent,
      the append fails and no file changes. */
  lemma WriteLostWhenLeafHasSlash(fs: FileSystem, baseDir: Path, m: Metric, resp: Response)
    requires WellFormed(m)
    requires resp.datapoints.Some?
    requires !SlashFree(Leaf(m))
    requires DerivePaths(baseDir, m).file !in fs.files
    requires Parent(DerivePaths(baseDir, m).file) !in fs.dirs
    ensures Persist(fs, baseDir, m, resp).files == fs.files
  {
    var loc := DerivePaths(baseDir, m);
    LastSlashInsideSegment(loc.dir, Leaf(m));
    assert |Parent(loc.file)| > |loc.dir|;
  }

  /** A regular file standing where the metric's directory belongs blocks
      the write: the directory cannot be created, so the file's parent is
      missing and the open fails. */
  lemma FileOnDirectoryBlocksWrite(fs: FileSystem, baseDir: Path, m: Metric, resp: Response)
    requires WellFormed(m) && Valid(fs) && SlashFree(Leaf(m))
    requires DerivePaths(baseDir, m).dir in fs.files
    requires DerivePaths(baseDir, m).file !in fs.files
    ensures Persist(fs, baseDir, m, resp).files == fs.files
  {
    ParentOfFile(baseDir, m);
  }

  /** A load-balancer metric whose first dimension value is "app/web/1"
      loses its write on an empty tree, though its reply carries data. */
  lemma LoadBalancerWriteLost(d: Datapoint)
    ensures var m := Metric("AWS/ApplicationELB", "RequestCount",
                            Some([Dim("LoadBalancer", "app/web/1")]));
            var resp := Response("RequestCount", Some([d]));
            Persist(FileSystem({}, map[]), "/tmp/cloudwatch", m, resp).files == map[]
  {
    var m := Metric("AWS/ApplicationELB", "RequestCount", Some([Dim("LoadBalancer", "app/web/1")]));
    var resp := Response("RequestCount", Some([d]));
    assert Leaf(m)[3] == '/';
    WriteLostWhenLeafHasSlash(FileSystem({}, map[]), "/tmp/cloudwatch", m, resp);
  }

  /** The write decision with the directory taken as the file's actual
      parent, so that the directory ensured always holds the file. */
  function DecideCorrected(baseDir: Path, m: Metric, resp: Response): (r: Option<WriteAction>)
    requires WellFormed(m)
    ensures r.Some? <==> resp.datapoints.Some?
    ensures r.Some? ==> r.value.document == resp && r.value.file == DerivePaths(baseDir, m).file
    ensures r.Some? ==> r.value.dir == Parent(r.value.file)
  {
    if resp.datapoints.Some? then
      var file := DerivePaths(baseDir, m).file;
      Some(WriteAction(Parent(file), file, resp))
    else
      None
  }

  /** With the corrected decision every reply with a datapoint list lands
      when nothing on its path clashes, whatever the segments hold. */
  lemma CorrectedWriteLands(fs: FileSystem, baseDir: Path, m: Metric, resp: Response)
    requires WellFormed(m)
    requires resp.datapoints.Some?
    requires NoClash(fs, Parent(DerivePaths(baseDir, m).file), DerivePaths(baseDir, m).file)
    ensures var fs' := Apply(fs, DecideCorrected(baseDir, m, resp));
            var file := DerivePaths(baseDir, m).file;
            && Contents(fs', file) == Contents(fs, file) + [resp]
            && (forall g :: g != file ==> Contents(fs', g) == Contents(fs, g))
            && fs.dirs <= fs'.dirs
  {
    var loc := DerivePaths(baseDir, m);
    assert loc.file[|loc.dir|] == '/';
    assert LastSlash(loc.file).Some?;
    assert |Parent(loc.file)| < |loc.file|;
    assert loc.file !in Ancestors(Parent(loc.file));
  }

  /** The corrected decision and the written one agree whenever the leaf
      segment is free of separators. */
  lemma CorrectedAgrees(baseDir: Path, m: Metric, resp: Response)
    requires WellFormed(m)
    requires SlashFree(Leaf(m))
    ensures DecideCorrected(baseDir, m, resp) == Decide(baseDir, m, resp)
  {
    ParentOfFile(baseDir, m);
  }
}

=== FILE: siphon.dfy ===
/** A whole collection run: the listing spawns one task per metric, and
    every task persists its own reply. The tasks are applied one after the
    other in spawn order, which is one of the interleavings the concurrent
    program allows. */
module Siphon {
  import opened Wrappers
  import opened Metrics
  import opened Paths
  import opened Layout
  import opened Persister
  import opened Listing

  predicate AllWellFormed(tasks: seq<Metric>) {
    forall i :: 0 <= i < |tasks| ==> WellFormed(tasks[i])
  }

  /** Every task whose reply carries a datapoint list has a leaf without a
      separator; tasks without data never write, so their leaves are free. */
  predicate DataLeavesSlashFree(tasks: seq<Metric>, resps: seq<Response>)
    requires |resps| == |tasks| && AllWellFormed(tasks)
  {
    forall i :: 0 <= i < |tasks| && resps[i].datapoints.Some? ==> SlashFree(Leaf(tasks[i]))
  }

  lemma PrefixWellFormed(tasks: seq<Metric>, n: nat)
    requires n <= |tasks| && AllWellFormed(tasks)
    ensures AllWellFormed(tasks[..n])
  {
    forall i | 0 <= i < n ensures WellFormed(tasks[..n][i]) {
      assert tasks[..n][i] == tasks[i];
    }
  }

  /** The files the tasks with data append to. */
  function WriteTargets(baseDir: Path, tasks: seq<Metric>, resps: seq<Response>): set<Path>
    requires |resps| == |tasks| && AllWellFormed(tasks)
    decreases |tasks|
  {
    if |tasks| == 0 then {}
    else
      var n := |tasks| - 1;
      PrefixWellFormed(tasks, n);
      WriteTargets(baseDir, tasks[..n], resps[..n])
        + (if resps[n].datapoints.Some? then {DerivePaths(baseDir, tasks[n]).file} else {})
  }

  /** The directories, with their ancestors, that the tasks with data
      ensure. */
  function WriteDirs(baseDir: Path, tasks: seq<Metric>, resps: seq<Response>): set<Path>
    requires |resps| == |tasks| && AllWellFormed(tasks)
    decreases |tasks|
  {
    if |tasks| == 0 then {}
    else
      var n := |tasks| - 1;
      PrefixWellFormed(tasks, n);
      WriteDirs(baseDir, tasks[..n], resps[..n])
        + (if resps[n].datapoints.Some? then Ancestors(DerivePaths(baseDir, tasks[n]).dir) else {})
  }

  /** The tree after every task has persisted its reply; `resps[i]` is the
      reply task `i` obtained. No directory and no document is ever removed,
      a tree without file/directory clashes stays so, and only the paths the
      tasks with data aim at can be added. */
  function Run(fs: FileSystem, baseDir: Path, tasks: seq<Metric>, resps: seq<Response>): (r: FileSystem)
    requires |resps| == |tasks| && AllWellFormed(tasks)
    ensures fs.dirs <= r.dirs
    ensures forall f :: Contents(fs, f) <= Contents(r, f)
    ensures Valid(fs) ==> Valid(r)
    ensures r.dirs <= fs.dirs + WriteDirs(baseDir, tasks, resps)
    ensures r.files.Keys <= fs.files.Keys + WriteTargets(baseDir, tasks, resps)
    decreases |tasks|
  {
    if |tasks| == 0 then fs
    else
      var n := |tasks| - 1;
      PrefixWellFormed(tasks, n);
      var mid := Run(fs, baseDir, tasks[..n], resps[..n]);
      var r := Persist(mid, baseDir, tasks[n], resps[n]);
      assert forall f :: Contents(fs, f) <= Contents(mid, f) <= Contents(r, f);
      r
  }

  /** The replies, in task order, whose task writes to file `f`. */
  function Landing(f: Path, baseDir: Path, tasks: seq<Metric>, resps: seq<Response>): seq<Response>
    requires |resps| == |tasks| && AllWellFormed(tasks)
    decreases |tasks|
  {
    if |tasks| == 0 then []
    else
      var n := |tasks| - 1;
      PrefixWellFormed(tasks, n);
      Landing(f, baseDir, tasks[..n], resps[..n]) + Hit(f, baseDir, tasks[n], resps[n])
  }

  /** The reply of one task, if that task writes to file `f`. */
  function Hit(f: Path, baseDir: Path, m: Metric, resp: Response): seq<Response>
    requires WellFormed(m)
  {
    if resp.datapoints.Some? && DerivePaths(baseDir, m).file == f then [resp] else []
  }

  /** No file a task writes is a directory some task ensures or a
      directory of the starting tree, and no directory some task ensures is
      a file of the starting tree. */
  predicate RunClashFree(fs: FileSystem, baseDir: Path, tasks: seq<Metric>, resps: seq<Response>)
    requires |resps| == |tasks| && AllWellFormed(tasks)
  {
    && WriteDirs(baseDir, tasks, resps) !! fs.files.Keys + WriteTargets(baseDir, tasks, resps)
    && WriteTargets(baseDir, tasks, resps) !! fs.dirs
  }

  /** A clash-free run has a clash-free prefix, and the tree the prefix
      leaves has no clash on the next task's paths. */
  lemma ClashFreeStep(fs: FileSystem, baseDir: Path, tasks: seq<Metric>, resps: seq<Response>)
    requires |resps| == |tasks| >= 1 && AllWellFormed(tasks)
    requires RunClashFree(fs, baseDir, tasks, resps)
    ensures AllWellFormed(tasks[..|tasks| - 1])
    ensures RunClashFree(fs, baseDir, tasks[..|tasks| - 1], resps[..|tasks| - 1])
    ensures var n := |tasks| - 1;
            var loc := DerivePaths(baseDir, tasks[n]);
            resps[n].datapoints.Some? ==>
              NoClash(Run(fs, baseDir, tasks[..n], resps[..n]), loc.dir, loc.file)
  {
    var n := |tasks| - 1;
    PrefixWellFormed(tasks, n);
    var mid := Run(fs, baseDir, tasks[..n], resps[..n]);
    assert mid.dirs <= fs.dirs + WriteDirs(baseDir, tasks, resps);
    assert mid.files.Keys <= fs.files.Keys + WriteTargets(baseDir, tasks, resps);
  }

  lemma PrefixSlashFree(tasks: seq<Metric>, resps: seq<Response>, n: nat)
    requires n <= |tasks| == |resps| && AllWellFormed(tasks)
    requires DataLeavesSlashFree(tasks, resps)
    ensures AllWellFormed(tasks[..n]) && DataLeavesSlashFree(tasks[..n], resps[..n])
  {
    PrefixWellFormed(tasks, n);
    forall i | 0 <= i < n && resps[..n][i].datapoints.Some?
      ensures SlashFree(Leaf(tasks[..n][i]))
    {
      assert tasks[..n][i] == tasks[i] && resps[..n][i] == resps[i];
    }
  }

  /** A run is its prefix run followed by the last task. */
  lemma RunStep(fs: FileSystem, baseDir: Path, tasks: seq<Metric>, resps: seq<Response>)
    requires |resps| == |tasks| >= 1 && AllWellFormed(tasks)
    ensures AllWellFormed(tasks[..|tasks| - 1])
    ensures var n := |tasks| - 1;
            Run(fs, baseDir, tasks, resps)
            == Persist(Run(fs, baseDir, tasks[..n], resps[..n]), baseDir, tasks[n], resps[n])
  {
    PrefixWellFormed(tasks, |tasks| - 1);
  }

  /** One task's effect on the contents of one file, when its write lands. */
  lemma PersistContents(fs: FileSystem, baseDir: Path, m: Metric, resp: Response, f: Path)
    requires WellFormed(m)
    requires resp.datapoints.Some? ==> SlashFree(Leaf(m))
    requires resp.datapoints.Some? ==>
               NoClash(fs, DerivePaths(baseDir, m).dir, DerivePaths(baseDir, m).file)
    ensures Contents(Persist(fs, baseDir, m, resp), f)
            == Contents(fs, f)
               + Hit(f, baseDir, m, resp)
  {
  }

  /** The replies landing in `f` after one more task. */
  lemma LandingStep(f: Path, baseDir: Path, tasks: seq<Metric>, resps: seq<Response>)
    requires |resps| == |tasks| >= 1 && AllWellFormed(tasks)
    ensures AllWellFormed(tasks[..|tasks| - 1])
    ensures var n := |tasks| - 1;
            Landing(f, baseDir, tasks, resps)
            == Landing(f, baseDir, tasks[..n], resps[..n])
               + Hit(f, baseDir, tasks[n], resps[n])
  {
    PrefixWellFormed(tasks, |tasks| - 1);
  }

  /** With separator-free leaves on the tasks with data and no
      file/directory clash, each file ends
      up holding its old documents followed by exactly the replies of the
      tasks that target it. Under these hypotheses every write lands, so
      each file's documents are the same in every interleaving up to order. */
  lemma {:induction false} RunAppends(fs: FileSystem, baseDir: Path, tasks: seq<Metric>,
                                      resps: seq<Response>, f: Path)
    requires |resps| == |tasks| && AllWellFormed(tasks)
    requires DataLeavesSlashFree(tasks, resps)
    requires RunClashFree(fs, baseDir, tasks, resps)
    ensures Contents(Run(fs, baseDir, tasks, resps), f)
            == Contents(fs, f) + Landing(f, baseDir, tasks, resps)
    decreases |tasks|
  {
    if |tasks| > 0 {
      var n := |tasks| - 1;
      ClashFreeStep(fs, baseDir, tasks, resps);
      PrefixSlashFree(tasks, resps, n);
      RunAppends(fs, baseDir, tasks[..n], resps[..n], f);
      RunAppendsStep(fs, baseDir, tasks, resps, f);
    }
  }

  /** The inductive step of RunAppends: if the prefix run appended exactly
      its landing replies to `f`, so does the whole run. */
  lemma RunAppendsStep(fs: FileSystem, baseDir: Path, tasks: seq<Metric>,
                       resps: seq<Response>, f: Path)
    requires |resps| == |tasks| >= 1 && AllWellFormed(tasks)
    requires DataLeavesSlashFree(tasks, resps)
    requires RunClashFree(fs, baseDir, tasks, resps)
    requires AllWellFormed(tasks[..|tasks| - 1])
    requires Contents(Run(fs, baseDir, tasks[..|tasks| - 1], resps[..|tasks| - 1]), f)
             == Contents(fs, f) + Landing(f, baseDir, tasks[..|tasks| - 1], resps[..|tasks| - 1])
    ensures Contents(Run(fs, baseDir, tasks, resps), f)
            == Contents(fs, f) + Landing(f, baseDir, tasks, resps)
  {
    var n := |tasks| - 1;
    ClashFreeStep(fs, baseDir, tasks, resps);
    LandingStep(f, baseDir, tasks, resps);
    RunStep(fs, baseDir, tasks, resps);
    var mid := Run(fs, baseDir, tasks[..n], resps[..n]);
    PersistContents(mid, baseDir, tasks[n], resps[n], f);
    var before := Contents(fs, f);
    var earlier := Landing(f, baseDir, tasks[..n], resps[..n]);
    var hit := Hit(f, baseDir, tasks[n], resps[n]);
    assert Contents(Run(fs, baseDir, tasks, resps), f) == (before + earlier) + hit;
    ConcatAssoc(before, earlier, hit);
  }

  /** Regrouping a concatenation; stated once so the step above does not
      search for it. */
  lemma ConcatAssoc<T>(a: seq<T>, b: seq<T>, c: seq<T>)
    ensures (a + b) + c == a + (b + c)
  {
  }

  /** A file that no task with data targets is never modified, whatever the
      segments hold. */
  lemma {:induction false} UntargetedUnchanged(fs: FileSystem, baseDir: Path, tasks: seq<Metric>,
                                               resps: seq<Response>, f: Path)
    requires |resps| == |tasks| && AllWellFormed(tasks)
    requires Landing(f, baseDir, tasks, resps) == []
    ensures Contents(Run(fs, baseDir, tasks, resps), f) == Contents(fs, f)
    decreases |tasks|
  {
    if |tasks| > 0 {
      var n := |tasks| - 1;
      PrefixWellFormed(tasks, n);
      UntargetedUnchanged(fs, baseDir, tasks[..n], resps[..n], f);
    }
  }

  /** Two tasks run one after the other. */
  lemma RunOfTwo(fs: FileSystem, baseDir: Path, m1: Metric, m2: Metric, r1: Response, r2: Response)
    requires WellFormed(m1) && WellFormed(m2)
    ensures Run(fs, baseDir, [m1, m2], [r1, r2])
            == Persist(Persist(fs, baseDir, m1, r1), baseDir, m2, r2)
  {
    assert [m1, m2][..1] == [m1] && [r1, r2][..1] == [r1];
    assert [m1][..0] == [] && [r1][..0] == [];
    assert Run(fs, baseDir, [], []) == fs;
    assert Run(fs, baseDir, [m1], [r1]) == Persist(fs, baseDir, m1, r1);
  }

  /** Two metrics on one page: one keyed by an instance with three
      datapoints, one without dimensions and without a datapoint list. The
      run counts two metrics and creates exactly one file,
      baseDir/namespace/InstanceId/i-1, holding the first reply once; no
      file exists for the second metric. */
  lemma TwoMetricScenario(baseDir: Path, ns: string, d1: Datapoint, d2: Datapoint, d3: Datapoint)
    ensures var m1 := Metric(ns, "CPUUtilization", Some([Dim("InstanceId", "i-1")]));
            var m2 := Metric(ns, "StatusCheckFailed", None);
            var r1 := Response("CPUUtilization", Some([d1, d2, d3]));
            var r2 := Response("StatusCheckFailed", None);
            var pages := [[m1, m2]];
            var fs' := Run(FileSystem({}, map[]), baseDir, [m1, m2], [r1, r2]);
            && Flatten(pages) == [m1, m2]
            && Total(pages) == 2
            && fs'.files.Keys == {baseDir + "/" + ns + "/" + "InstanceId" + "/" + "i-1"}
            && Contents(fs', baseDir + "/" + ns + "/" + "InstanceId" + "/" + "i-1") == [r1]
            && baseDir + "/" + ns + "/" + "StatusCheckFailed" !in fs'.files
  {
    var m1 := Metric(ns, "CPUUtilization", Some([Dim("InstanceId", "i-1")]));
    var m2 := Metric(ns, "StatusCheckFailed", None);
    var r1 := Response("CPUUtilization", Some([d1, d2, d3]));
    var r2 := Response("StatusCheckFailed", None);
    var pages := [[m1, m2]];
    assert pages[..0] == [];
    assert Flatten(pages) == [] + [m1, m2];
    var fs := FileSystem({}, map[]);
    var after1 := Persist(fs, baseDir, m1, r1);
    RunOfTwo(fs, baseDir, m1, m2, r1, r2);
    NoDataNoEffect(after1, baseDir, m2, r2);
    assert SlashFree(Leaf(m1));
    WriteLands(fs, baseDir, m1, r1);
    var f1 := DerivePaths(baseDir, m1).file;
    assert f1 == baseDir + "/" + ns + "/" + "InstanceId" + "/" + "i-1";
    assert |baseDir + "/" + ns + "/" + "StatusCheckFailed"| != |f1|;
  }

  /** The first write on an empty tree creates exactly the metric's file,
      holding the reply. */
  lemma FirstWrite(baseDir: Path, m: Metric, resp: Response)
    requires WellFormed(m) && SlashFree(Leaf(m)) && resp.datapoints.Some?
    ensures var r := Persist(FileSystem({}, map[]), baseDir, m, resp);
            && r.files == map[DerivePaths(baseDir, m).file := [resp]]
            && Valid(r)
  {
    var fs := FileSystem({}, map[]);
    WriteLands(fs, baseDir, m, resp);
    var r := Persist(fs, baseDir, m, resp);
    var f := DerivePaths(baseDir, m).file;
    assert Valid(fs);
    assert r.files.Keys == {f};
    assert Contents(r, f) == [] + [resp];
    assert r.files[f] == [resp];
    assert r.files == map[f := [resp]];
  }

  /** A metric without dimensions whose name equals another metric's first
      dimension name, in the same namespace: the first writes a regular
      file where the second needs a directory. Run in this order, the
      directory cannot be created, so the second reply is lost. */
  lemma NameFileBlocksDimensionWrite(baseDir: Path, ns: string, x: string, y: string, v: string,
                                     d1: Datapoint, d2: Datapoint)
    requires SlashFree(x) && SlashFree(v)
    ensures var m1 := Metric(ns, x, None);
            var m2 := Metric(ns, y, Some([Dim(x, v)]));
            var r1 := Response(x, Some([d1]));
            var r2 := Response(y, Some([d2]));
            var fs' := Run(FileSystem({}, map[]), baseDir, [m1, m2], [r1, r2]);
            && Contents(fs', baseDir + "/" + ns + "/" + x) == [r1]
            && baseDir + "/" + ns + "/" + x + "/" + v !in fs'.files
  {
    var m1 := Metric(ns, x, None);
    var m2 := Metric(ns, y, Some([Dim(x, v)]));
    var r1 := Response(x, Some([d1]));
    var r2 := Response(y, Some([d2]));
    var fs := FileSystem({}, map[]);
    RunOfTwo(fs, baseDir, m1, m2, r1, r2);
    FirstWrite(baseDir, m1, r1);
    var after1 := Persist(fs, baseDir, m1, r1);
    var dir2 := baseDir + "/" + ns + "/" + x;
    var file2 := dir2 + "/" + v;
    assert DerivePaths(baseDir, m2) == Location(dir2, file2);
    assert |file2| > |dir2|;
    FileOnDirectoryBlocksWrite(after1, baseDir, m2, r2);
  }

  /** The same two metrics in the other order: now the directory exists
      where the first metric needs its regular file, so the open fails and
      the first reply is lost instead. */
  lemma DimensionDirectoryBlocksNameWrite(baseDir: Path, ns: string, x: string, y: string, v: string,
                                          d1: Datapoint, d2: Datapoint)
    requires SlashFree(x) && SlashFree(v)
    ensures var m1 := Metric(ns, x, None);
            var m2 := Metric(ns, y, Some([Dim(x, v)]));
            var r1 := Response(x, Some([d1]));
            var r2 := Response(y, Some([d2]));
            var fs' := Run(FileSystem({}, map[]), baseDir, [m2, m1], [r2, r1]);
            && Contents(fs', baseDir + "/" + ns + "/" + x + "/" + v) == [r2]
            && baseDir + "/" + ns + "/" + x !in fs'.files
  {
    var m1 := Metric(ns, x, None);
    var m2 := Metric(ns, y, Some([Dim(x, v)]));
    var r1 := Response(x, Some([d1]));
    var r2 := Response(y, Some([d2]));
    var fs := FileSystem({}, map[]);
    RunOfTwo(fs, baseDir, m2, m1, r2, r1);
    WriteLands(fs, baseDir, m2, r2);
    var after2 := Persist(fs, baseDir, m2, r2);
    var p := baseDir + "/" + ns;
    var file1 := p + "/" + x;
    assert DerivePaths(baseDir, m1) == Location(p, file1);
    assert file1 in after2.dirs;
    assert file1 in MkdirAll(after2, p).dirs;
    assert file1 !in after2.files;
  }
}

=== FILE: wrappers.dfy ===
/** Optional values: Go's nil slices become `None`. */
module Wrappers {

  datatype Option<+T> = None | Some(value: T)
}
